=== FILE: README.md ===
# MusicBot playback bookkeeping, in Dafny

A model of the per-guild playback state of a discord.py music bot: the
`VoiceState` session record (voice connection, current song, FIFO song queue,
loop flag, volume, skip votes), one iteration of its background player loop,
its `skip` and `stop` transitions, the cog's `voice_states` registry keyed by
guild id, and the state logic of the `join`, `play`, `leave`, `volume`,
`loop`, `stop`, `skip` and `queue` commands.

Everything is an immutable datatype and a pure function. Each command handler
and each player-loop iteration is one atomic step. The 180-second wait for the
next song is a boolean input (`timedOut`), not a clock. Calls into the voice
connection are returned as data: `sinkStopped`, `disconnected`, and the
`Effect` of a player iteration (`Play(song, volume)`, `Fault`, `IdleStop`,
`Waiting`). The session also records where the player task is suspended:
inside `songs.get()` (`awaitingSong`), or waiting for the sink to finish a
song. A task suspended in `get()` has already read the loop flag for that
iteration.

Modules:

- `Wrappers`: `Option`, for Python's `None` or a present object.
- `Media`: `Song` and the song queue as a `seq` with put, get, clear and a clamped slice.
- `Session`: `VoiceState`, `IsPlaying`, `Skip`, `Stop`, `PlayerStep`, and runs of the player loop.
- `Commands`: the per-session command handlers and the `queue` pagination.
- `Music`: the registry (`GetVoiceState`, `Leave`, `Unload`) and the player loop seen through it.

The model follows the code as written, including these behaviours:

- The volume range check `0 > volume > 100` never fires, so every integer is
  stored. See Findings.
- `current` is written only by the dequeue and never cleared. After the last
  song ends, `is_playing` stays true while the player waits.
- On idle timeout the loop schedules `stop` and then `continue`s. The next
  iteration starts before the stop runs. With loop off it waits in a fresh
  `get()`. With loop switched on during the wait, it first hands the current
  song to the still-connected voice. The loop does not terminate, and the session stays in the registry, disconnected. A later
  `leave` for that guild answers "not connected".
- `leave` on a guild with no session first creates one, because the lookup
  runs before every command. It then answers "not connected".
- Volume is stored as an integer percentage. The bot stores `volume / 100`.

## Model

| member | source | states |
|---|---|---|
| Media.Put | src/bot.py:335 | enqueueing appends the song at the back and keeps every queued song in place |
| Media.Get | src/bot.py:86 | dequeue is empty exactly on an empty queue; otherwise the head followed by the rest rebuilds the queue |
| Media.PutThenGet | src/bot.py:86 | FIFO law: a put behind a non-empty queue does not change the next song out; on an empty queue the put song comes out |
| Media.Clear | src/bot.py:116 | clearing leaves no pending song |
| Media.Slice | src/bot.py:267 | the display slice never exceeds the queue, equals `q[start..end]` for in-range bounds, is empty past the end, and lists queue entries from `start` |
| Session.Fresh | src/bot.py:40-47 | a new session is not connected, has no current song, an empty queue, loop off, volume 50, no votes, and a player that has not yet started waiting |
| Session.Skip | src/bot.py:109-113 | skip always empties the votes, stops the sink exactly when playing, and changes nothing else |
| Session.SkipLeavesPlayerAlone | src/bot.py:109-113 | the player's next iteration after a skip has the same effect and state as without it, apart from the emptied votes |
| Session.Stop | src/bot.py:115-120 | stop leaves an empty queue and no connection (so not playing), disconnects exactly when connected, keeps current, loop, volume and votes |
| Session.StopIdempotent | src/bot.py:115-120 | stopping a stopped session changes nothing and disconnects nothing |
| Session.StartPlayback | src/bot.py:92-99 | the song is handed to the sink, with the session volume, exactly when connected with a current song; otherwise the iteration faults and the state is untouched |
| Session.PlayerStep | src/bot.py:74-101 | going to the queue (loop off, or already suspended in `get()`): the queue head becomes current and leaves the queue, or the player stays suspended, or on timeout the session is stopped while the next iteration already runs: with loop off a fresh `get()` waits, with loop on the current song is first handed to the sink; loop on at the top of an iteration: the state is untouched and current is replayed; current once set stays set; the sink is only ever handed a song on a live connection, at the session volume; the player is left suspended in `get()` exactly when it reports waiting or an idle stop |
| Session.PlaysQueueInOrder | src/bot.py:79-93 | with loop off and a connection, n iterations play exactly the first n queued songs in queue order, the last one is current and the rest stay queued |
| Session.LoopReplaysCurrent | src/bot.py:79-93 | with loop on while playing and the player not suspended in `get()`, every iteration replays the current song and the session never changes |
| Session.CurrentNeverCleared | src/bot.py:70-86 | once a song is current, no number of iterations clears it |
| Session.StillPlayingWhileIdle | src/bot.py:70-86 | after the last song with an empty queue the loop only suspends in `get()` and the session still counts as playing |
| Session.SuspendedGetIgnoresLoop | src/bot.py:79-86 | for a player suspended in `get()` that gets a song or keeps waiting, changing the loop flag changes only the flag, not the next effect or state; after a timeout the flag is read again and decides between an idle stop and a replay |
| Session.IdleTimeoutStops | src/bot.py:84-90 | an idle timeout leaves an empty queue and no connection, so not playing, with the current song kept; with loop off the player waits in a fresh `get()` and a second timeout only reports again; with loop switched on during the wait the current song is handed to the sink once more, and the replay after that faults |
| Session.ThreeSongScenario | src/bot.py:79-93 | queueing A, B, C with loop off plays A, B, C in order, then waits with C current |
| Commands.JoinCommand | src/bot.py:160-165 | join leaves the session connected to the destination, moving an existing connection or making a new one, and changes nothing else |
| Commands.JoinTwice | src/bot.py:160-165 | joining the same channel again only moves the connection in place; a joined session is playing exactly when it has a current song |
| Commands.PlayCommand | src/bot.py:322-336 | play connects to the destination when not connected and keeps an existing connection, then appends the resolved song or on a resolution error queues nothing; nothing else changes |
| Commands.PlayThenStep | src/bot.py:79-93 | a song played into an empty queue, while the player goes to the queue, is the next song handed to the sink, at the session volume |
| Commands.VolumeCommand | src/bot.py:181-188 | volume refuses unless playing; while playing it stores any integer, because the range reply is never produced; only the volume changes |
| Commands.VolumeGuardNeverFires | src/bot.py:184-187 | while playing, 150 and -1 are both stored as the volume |
| Commands.VolumeCommandChecked | src/bot.py:184-185 | with the intended guard, while playing the range reply is given exactly for values outside 0..100, leaves the state alone, and any stored change lies in 0..100 |
| Commands.VolumeGuardsAgreeInRange | src/bot.py:181-188 | on 0..100 the written and intended volume handlers agree; outside it the intended one refuses while the written one stores the value |
| Commands.LoopCommand | src/bot.py:306-310 | loop refuses unless playing; while playing it flips the loop flag and nothing else |
| Commands.LoopToggleTwice | src/bot.py:309-310 | toggling the loop twice restores the session |
| Commands.StopCommand | src/bot.py:216-220 | the stop command empties the queue, keeps the connection, changes nothing else, and stops the sink exactly when playing |
| Commands.StopCommandThenStop | src/bot.py:212-220 | the stop command followed by the session's stop equals the session's stop; only the latter disconnects |
| Commands.SkipCommand | src/bot.py:228-234 | skip refuses unless playing; while playing it empties the votes, stops the sink and changes nothing else |
| Commands.SkipCommandLeavesPlayerAlone | src/bot.py:228-234 | the player's next iteration after a skip command has the same effect and state as without it, apart from the votes |
| Commands.TimeoutThenPlayScenario | src/bot.py:84-93 | after a timeout with loop off, playing B and switching loop on is followed by B being handed to the sink, not a replay |
| Commands.LoopWhileWaitingScenario | src/bot.py:79-86 | loop switched on while the player waits after A is accepted, yet a song B played next is dequeued and handed to the sink |
| Commands.LoopSkipScenario | src/bot.py:300-310 | with loop on, skipping replays the current song and keeps the queue; after loop is switched off the next queued song plays |
| Commands.IsPlayingPreserved | src/bot.py:70-72 | `is_playing` is kept by every command handler and by an iteration without a timeout; only `stop` clears it; the guarded handlers never set it |
| Commands.PageCount | src/bot.py:260-261 | the page count is the ceiling of the queue length over ten |
| Commands.QueueCommand | src/bot.py:257-274 | an empty queue short-circuits; otherwise for 1 <= page <= pages the start lies inside the queue and 1 to 10 songs are listed, numbered from start + 1 in queue order; other pages list nothing |
| Commands.PagesFromSuffix | src/bot.py:263-267 | pages p onwards list exactly the queue from position (p - 1) * 10 |
| Commands.PagesCoverQueue | src/bot.py:257-267 | reading every page in turn lists each queued song exactly once, in queue order |
| Music.GetVoiceState | src/bot.py:128-134 | lookup returns the stored session when present; otherwise stores and returns a fresh one (not connected, no current song, empty queue, loop off, volume 50, no votes, player not yet waiting); no other guild's entry changes |
| Music.GetVoiceStateTwice | src/bot.py:128-134 | a second lookup returns the same session and leaves the registry as the first left it |
| Music.Leave | src/bot.py:171-175 | leave answers "not connected" and keeps the registry when not connected; otherwise it stops and removes exactly that guild's entry |
| Music.LeaveCommand | src/bot.py:148-175 | leave on an unknown guild adds a fresh entry and answers "not connected"; on a connected guild the session is disconnected, its entry removed, and no "not connected" reply is sent |
| Music.PlayerTick | src/bot.py:74-101 | one iteration of a guild's player loop replaces only that guild's session, keeping every key |
| Music.IdleTimeoutKeepsEntry | src/bot.py:84-90 | after an idle timeout the guild keeps its entry, disconnected with an empty queue; lookup returns it and leave answers "not connected" |
| Music.Unload | src/bot.py:136-138 | unloading stops every session, keeping every guild, each with an empty queue and no connection and every other field (current song, loop, volume, votes, player phase) as it was |
| Music.UnloadThenLeave | src/bot.py:136-175 | unloading twice is the same as once, and after unloading `leave` on any guild answers "not connected" and keeps the registry |

## Left out

- Discord I/O: message text, embeds, reactions and typing indicators are reduced to a `Reply` value. `on_ready` and `bot.run` are not modelled.
- `ensure_voice_state` and `cog_check`: their channel and DM checks depend on the caller's discord context. `join` and `play` take the destination channel as a parameter.
- asyncio: the `next` event, `create_task`, `timeout`, `__del__` and `play_next_song` are not modelled. Each handler and each loop iteration is atomic. The 180-second timeout is the `timedOut` flag.
- Session.PlayerStep: a `Fault` iteration ends with the loop waiting on an event that no callback will set. The model lets the next iteration run anyway.
- Session.StartPlayback: faults the sink or the text channel raise on their own are not modelled. Only the faults visible in the state are: no connection, or no current song.
- Music.Leave: the session removed from the registry keeps its player task. That task's later iterations are not modelled.
- Audio resolution (`YTDLSource.create_source`, `YTDLError`): it runs over the network in a module that is not part of this model. `play` receives its result as an `Option`.
- `pause` and `resume`: their guard is inverted, and they query the live sink, which raises when there is no connection.
- `now`: display only.
- `shuffle` and `dequeue`: their queue operations live in media.py, which is not part of this model.
- The playlist commands (`new`, `add`, `remove`, `playpl`, `delete`, `list`, `listpl`): they are YAML file read-modify-write around a playlist class that is not part of this model.
- Media.Slice: negative bounds are clamped to 0. The queue class that implements slicing is not part of this model, so `queue` with a page below 1 (a negative start) is not determined by the code shown. Python list slicing would read the bounds from the end, and an `itertools.islice` queue would raise. The empty listing for such pages is this model's choice.
- Float volume: the model stores the integer percentage instead of `volume / 100`.
- Session.PlayerStep: in a loop replay, `Play` means the same, already-played source object is handed to `voice.play` again. Whether it is heard again depends on the audio source, which is not part of this model. The command's own docstring calls loop "Broken".
- Session.Fresh: the player task created with the session has not yet run, so `awaitingSong` starts false. Its first iteration reads the loop flag, which is off.
- `skip_votes` is modelled as a set that is only ever cleared. The voting code is commented out.

## Findings

| source | as written | input that shows it | evidently intended | confidence | as-written member | corrected member |
|---|---|---|---|---|---|---|
| src/bot.py:184 | `if 0 > volume > 100` is the chained comparison `0 > volume and volume > 100`, which no integer satisfies | `volume 150` (or `volume -1`) while playing is stored and confirmed as 150% | refuse values below 0 or above 100 (`volume < 0 or volume > 100`) | high (not executed) | Commands.VolumeGuardNeverFires | Commands.VolumeCommandChecked |

=== FILE: commands.dfy ===
/**
 * The command handlers of the music cog that act on one guild's session:
 * `join`, `play` (with the song already resolved), `volume`, `loop`, `stop`,
 * `skip` and the paginated `queue` listing.
 */
module Commands {
  import opened Wrappers
  import opened Media
  import opened Session

  /** Reactions the bot adds to the invoking message. */
  datatype Reaction = StopSign | NextTrack | CheckMark

  /** What a handler says in the text channel, if anything. */
  datatype Reply =
    | NoReply
    | React(reaction: Reaction)
    | NothingPlaying              // "Nothing being played at the moment."
    | NotPlayingMusic             // "Not playing any music right now..."
    | VolumeRangeError            // "Volume must be between 0 and 100"
    | VolumeSet(percent: int)     // "Volume of the player set to ...%"
    | Enqueued(song: Song)
    | ResolveError

  /** A handler's new session, its reply, and whether it told the sink to stop. */
  datatype Outcome = Outcome(state: VoiceState, reply: Reply, sinkStopped: bool)

  /** `join` as a transition plus whether an existing connection was moved. */
  datatype Joined = Joined(state: VoiceState, moved: bool)

  /** `join`: moves an existing connection to `destination`, or connects there. */
  function JoinCommand(s: VoiceState, destination: ChannelId): (r: Joined)
    ensures r.state.voice == Some(Voice(destination))
    ensures r.moved <==> s.voice.Some?
    ensures r.state.(voice := s.voice) == s
  {
    Joined(s.(voice := Some(Voice(destination))), s.voice.Some?)
  }

  /**
   * Joining again where the session already is only moves the connection in
   * place; a joined session is playing exactly when it holds a current song.
   */
  lemma JoinTwice(s: VoiceState, destination: ChannelId)
    ensures var once := JoinCommand(s, destination);
      JoinCommand(once.state, destination) == Joined(once.state, true)
    ensures IsPlaying(JoinCommand(s, destination).state) <==> s.current.Some?
  {
  }

  /**
   * `play` after resolution: joins first when not connected, then appends the
   * song, or reports the resolver's error and queues nothing.
   */
  function PlayCommand(s: VoiceState, destination: ChannelId, resolved: Option<Song>): (r: Outcome)
    ensures r.state.voice.Some?
    ensures s.voice.Some? ==> r.state.voice == s.voice
    ensures s.voice.None? ==> r.state.voice == Some(Voice(destination))
    ensures r.state.(voice := s.voice, songs := s.songs) == s
    ensures resolved.Some? ==> r.state.songs == s.songs + [resolved.value] && r.reply == Enqueued(resolved.value)
    ensures resolved.None? ==> r.state.songs == s.songs && r.reply == ResolveError
    ensures !r.sinkStopped
  {
    var joined := if s.voice.None? then JoinCommand(s, destination).state else s;
    match resolved
    case None => Outcome(joined, ResolveError, false)
    case Some(song) => Outcome(joined.(songs := Put(joined.songs, song)), Enqueued(song), false)
  }

  /**
   * A song played into an empty queue, while the player goes to the queue
   * (loop off, or already suspended in `get()`), is the next one handed to
   * the sink, at the session's volume.
   */
  lemma PlayThenStep(s: VoiceState, destination: ChannelId, song: Song)
    requires TakesFromQueue(s) && s.songs == []
    ensures var step := PlayerStep(PlayCommand(s, destination, Some(song)).state, false);
      && step.effect == Play(song, s.volume)
      && step.state.current == Some(song) && step.state.songs == []
  {
  }

  /**
   * `volume`, with the range guard as the bot writes it: `0 > volume > 100`
   * is a chained comparison that no integer satisfies, so while playing every
   * value is stored.
   */
  function VolumeCommand(s: VoiceState, volume: int): (r: Outcome)
    ensures !IsPlaying(s) ==> r == Outcome(s, NothingPlaying, false)
    ensures IsPlaying(s) ==> r.state.volume == volume && r.reply == VolumeSet(volume)
    ensures r.state.(volume := s.volume) == s
    ensures r.reply != VolumeRangeError && !r.sinkStopped
  {
    if !IsPlaying(s) then Outcome(s, NothingPlaying, false)
    else if 0 > volume > 100 then Outcome(s, VolumeRangeError, false)
    else Outcome(s.(volume := volume), VolumeSet(volume), false)
  }

  /** The out-of-range values the guard was meant to reject are stored. */
  lemma VolumeGuardNeverFires(s: VoiceState)
    requires IsPlaying(s)
    ensures VolumeCommand(s, 150).state.volume == 150
    ensures VolumeCommand(s, -1).state.volume == -1
  {
  }

  /** `volume` with the evidently intended guard `volume < 0 or volume > 100`. */
  function VolumeCommandChecked(s: VoiceState, volume: int): (r: Outcome)
    ensures !IsPlaying(s) ==> r == Outcome(s, NothingPlaying, false)
    ensures IsPlaying(s) ==> (r.reply == VolumeRangeError <==> volume < 0 || volume > 100)
    ensures r.reply == VolumeRangeError ==> r.state == s
    ensures r.state.volume != s.volume ==> 0 <= r.state.volume <= 100
    ensures r.state.(volume := s.volume) == s && !r.sinkStopped
  {
    if !IsPlaying(s) then Outcome(s, NothingPlaying, false)
    else if volume < 0 || volume > 100 then Outcome(s, VolumeRangeError, false)
    else Outcome(s.(volume := volume), VolumeSet(volume), false)
  }

  /** On the percentage domain both guards agree; outside it only the checked one refuses. */
  lemma VolumeGuardsAgreeInRange(s: VoiceState, volume: int)
    ensures 0 <= volume <= 100 ==> VolumeCommandChecked(s, volume) == VolumeCommand(s, volume)
    ensures IsPlaying(s) && (volume < 0 || volume > 100) ==>
      VolumeCommandChecked(s, volume).state == s && VolumeCommand(s, volume).state.volume == volume
  {
  }

  /** `loop`: while playing, flips the loop flag and nothing else. */
  function LoopCommand(s: VoiceState): (r: Outcome)
    ensures !IsPlaying(s) ==> r == Outcome(s, NothingPlaying, false)
    ensures IsPlaying(s) ==> r.state.loop == !s.loop && r.reply == React(CheckMark)
    ensures r.state.(loop := s.loop) == s && !r.sinkStopped
  {
    if !IsPlaying(s) then Outcome(s, NothingPlaying, false)
    else Outcome(s.(loop := !s.loop), React(CheckMark), false)
  }

  /** Toggling the loop twice restores the session. */
  lemma LoopToggleTwice(s: VoiceState)
    ensures LoopCommand(LoopCommand(s).state).state == s
  {
  }

  /**
   * `stop` command: clears the queue and, while playing, stops the sink.
   * Unlike `VoiceState.stop` it keeps the voice connection.
   */
  function StopCommand(s: VoiceState): (r: Outcome)
    ensures r.state.songs == []
    ensures r.state.voice == s.voice
    ensures r.state.(songs := s.songs) == s
    ensures r.sinkStopped <==> IsPlaying(s)
    ensures r.reply == (if IsPlaying(s) then React(StopSign) else NoReply)
  {
    var cleared := s.(songs := Clear(s.songs));
    if IsPlaying(cleared) then Outcome(cleared, React(StopSign), true)
    else Outcome(cleared, NoReply, false)
  }

  /**
   * The command and the session's own `stop` differ only in the connection:
   * following the command with `stop` is the same as `stop` alone.
   */
  lemma StopCommandThenStop(s: VoiceState)
    ensures Stop(StopCommand(s).state).state == Stop(s).state
    ensures s.voice.Some? ==> StopCommand(s).state.voice.Some? && Stop(s).state.voice.None?
  {
  }

  /** `skip` command: refuses unless playing, otherwise runs `VoiceState.skip`. */
  function SkipCommand(s: VoiceState): (r: Outcome)
    ensures !IsPlaying(s) ==> r == Outcome(s, NotPlayingMusic, false)
    ensures IsPlaying(s) ==> r.state.skipVotes == {} && r.sinkStopped && r.reply == React(NextTrack)
    ensures r.state.(skipVotes := s.skipVotes) == s
  {
    if !IsPlaying(s) then Outcome(s, NotPlayingMusic, false)
    else
      var skipped := Skip(s);
      Outcome(skipped.state, React(NextTrack), skipped.sinkStopped)
  }

  /**
   * The player does not look at the votes, so a skip command leaves its next
   * iteration as it was; only the sink stop makes that iteration come sooner.
   */
  lemma SkipCommandLeavesPlayerAlone(s: VoiceState, timedOut: bool)
    ensures PlayerStep(SkipCommand(s).state, timedOut).effect == PlayerStep(s, timedOut).effect
    ensures PlayerStep(SkipCommand(s).state, timedOut).state ==
      PlayerStep(s, timedOut).state.(skipVotes := SkipCommand(s).state.skipVotes)
  {
  }

  /**
   * Loop switched on while the player waits after A: the command is accepted,
   * because A is still current, but the waiting `get()` has already read the
   * flag, so a song B played next is dequeued and handed to the sink.
   */
  lemma LoopWhileWaitingScenario(a: Song, b: Song, ch: ChannelId)
    ensures var s := VoiceState(Some(Voice(ch)), Some(a), [], false, DefaultVolume, {}, false);
      var waiting := PlayerStep(s, false);
      var looped := LoopCommand(waiting.state);
      var queued := PlayCommand(looped.state, ch, Some(b));
      var next := PlayerStep(queued.state, false);
      && waiting.effect == Waiting
      && looped.reply == React(CheckMark) && looped.state.loop
      && next.effect == Play(b, DefaultVolume)
      && next.state.current == Some(b) && next.state.songs == []
  {
  }

  /**
   * Loop on while A plays and B waits: skipping only stops the sink, so the
   * next iteration replays A; once the loop is switched off, B follows.
   */
  lemma LoopSkipScenario(a: Song, b: Song, ch: ChannelId)
    ensures var s := VoiceState(Some(Voice(ch)), Some(a), [b], true, DefaultVolume, {}, false);
      var skipped := SkipCommand(s);
      var replay := PlayerStep(skipped.state, false);
      var unlooped := LoopCommand(replay.state);
      var next := PlayerStep(unlooped.state, false);
      && skipped.sinkStopped
      && replay.effect == Play(a, DefaultVolume)
      && replay.state.songs == [b]
      && next.effect == Play(b, DefaultVolume)
      && next.state.songs == []
  {
  }

  /** Songs shown per `queue` page. */
  const ItemsPerPage: int := 10

  /** `math.ceil(n / 10)`. */
  function PageCount(n: nat): (pages: nat)
    ensures pages * ItemsPerPage >= n
    ensures pages == 0 || (pages - 1) * ItemsPerPage < n
  {
    (n + ItemsPerPage - 1) / ItemsPerPage
  }

  /** One listed song and the number shown before it. */
  datatype Line = Line(number: int, song: Song)

  /** The `queue` reply: "Empty queue." or a listing with its footer. */
  datatype QueueView =
    | EmptyQueue
    | Listing(total: nat, lines: seq<Line>, page: int, pages: nat)

  /**
   * `queue [page]`: short-circuits on an empty queue; otherwise lists the slice
   * `[(page-1)*10, (page-1)*10 + 10)` numbered from `(page-1)*10 + 1`, with
   * the requested page and the page count in the footer. `queue` with no
   * argument is `QueueCommand(songs, 1)`.
   */
  function QueueCommand(songs: Queue, page: int): (r: QueueView)
    ensures r.EmptyQueue? <==> |songs| == 0
    ensures r.Listing? ==> r.total == |songs| && r.page == page
    ensures r.Listing? ==> r.pages * ItemsPerPage >= |songs| > (r.pages - 1) * ItemsPerPage
    ensures r.Listing? && 1 <= page <= r.pages ==>
      var start := (page - 1) * ItemsPerPage;
      && start < |songs|
      && 1 <= |r.lines| <= ItemsPerPage
      && |r.lines| == (if start + ItemsPerPage <= |songs| then ItemsPerPage else |songs| - start)
      && forall k :: 0 <= k < |r.lines| ==> r.lines[k] == Line(start + k + 1, songs[start + k])
    ensures r.Listing? && (page < 1 || page > r.pages) ==> r.lines == []
  {
    if |songs| == 0 then EmptyQueue
    else
      var pages := PageCount(|songs|);
      var start := (page - 1) * ItemsPerPage;
      var end := start + ItemsPerPage;
      var shown := Slice(songs, start, end);
      Listing(|songs|, seq(|shown|, k requires 0 <= k < |shown| => Line(start + k + 1, shown[k])), page, pages)
  }

  /** The songs a `queue` reply lists, in order. */
  function ShownSongs(v: QueueView): seq<Song>
  {
    if v.EmptyQueue? then [] else seq(|v.lines|, k requires 0 <= k < |v.lines| => v.lines[k].song)
  }

  /** The songs listed on pages `first` .. `last`, page after page. */
  function PagesFrom(songs: Queue, first: int, last: int): seq<Song>
    decreases last - first + 1
  {
    if first > last then [] else ShownSongs(QueueCommand(songs, first)) + PagesFrom(songs, first + 1, last)
  }

  /** Pages `p` onwards list exactly the queue from position `(p-1)*10`. */
  lemma {:induction false} PagesFromSuffix(songs: Queue, p: int)
    requires |songs| > 0 && 1 <= p <= PageCount(|songs|) + 1
    ensures PagesFrom(songs, p, PageCount(|songs|)) ==
      if p <= PageCount(|songs|) then songs[(p - 1) * ItemsPerPage..] else []
    decreases PageCount(|songs|) - p
  {
    var pages := PageCount(|songs|);
    if p <= pages {
      var v := QueueCommand(songs, p);
      var start := (p - 1) * ItemsPerPage;
      PagesFromSuffix(songs, p + 1);
      var shown := ShownSongs(v);
      var end := if start + ItemsPerPage <= |songs| then start + ItemsPerPage else |songs|;
      assert shown == songs[start..end];
      if p + 1 <= pages {
        assert end == p * ItemsPerPage;
        assert songs[start..] == songs[start..end] + songs[end..];
      } else {
        assert end == |songs|;
        assert songs[start..] == songs[start..end];
      }
    }
  }

  /** Reading every page in turn lists every queued song exactly once, in queue order. */
  lemma PagesCoverQueue(songs: Queue)
    ensures PagesFrom(songs, 1, PageCount(|songs|)) == songs
  {
    if |songs| > 0 {
      PagesFromSuffix(songs, 1);
    }
  }

  /**
   * How `is_playing`, the guard of `volume`, `loop` and `skip`, moves across
   * transitions: no command handler and no iteration without a timeout turns
   * it off, only `stop` does; and the guarded handlers never turn it on.
   */
  lemma IsPlayingPreserved(s: VoiceState, volume: int, destination: ChannelId, resolved: Option<Song>)
    ensures IsPlaying(s) ==>
      && IsPlaying(PlayerStep(s, false).state)
      && IsPlaying(VolumeCommand(s, volume).state)
      && IsPlaying(LoopCommand(s).state)
      && IsPlaying(SkipCommand(s).state)
      && IsPlaying(StopCommand(s).state)
      && IsPlaying(PlayCommand(s, destination, resolved).state)
    ensures !IsPlaying(Stop(s).state)
    ensures !IsPlaying(s) ==>
      && !IsPlaying(VolumeCommand(s, volume).state)
      && !IsPlaying(LoopCommand(s).state)
      && !IsPlaying(SkipCommand(s).state)
      && !IsPlaying(StopCommand(s).state)
  {
  }

  /**
   * A timeout with loop off leaves the task suspended in a fresh `get()`
   * while the scheduled stop disconnects. Playing B reconnects and queues it;
   * switching loop on is accepted because the old song is still current, but
   * the pending `get()` returns B, and B is what the sink receives.
   */
  lemma TimeoutThenPlayScenario(a: Song, b: Song, ch: ChannelId)
    ensures var s := VoiceState(Some(Voice(ch)), Some(a), [], false, DefaultVolume, {}, true);
      var timedOut := PlayerStep(s, true);
      var queued := PlayCommand(timedOut.state, ch, Some(b));
      var looped := LoopCommand(queued.state);
      var next := PlayerStep(looped.state, false);
      && timedOut.effect == IdleStop && timedOut.state.voice.None?
      && looped.reply == React(CheckMark)
      && next.effect == Play(b, DefaultVolume)
      && next.state.songs == []
  {
  }
}

=== FILE: media.dfy ===
/**
 * Songs and the per-guild song queue.
 *
 * The queue class of the bot lives in a module that is not part of this
 * model; it is represented here by what the playback logic relies on: a FIFO
 * sequence with append, head-dequeue, clear and a bounded slice for display.
 */
module Media {
  import opened Wrappers

  type UserId = int

  /** A resolved audio source: what is shown in listings and handed to the sink. */
  datatype Song = Song(title: string, url: string, requester: UserId)

  /** Pending songs, oldest first. The song being played is never in here. */
  type Queue = seq<Song>

  /** `songs.put(song)`: appends at the back, keeping everything already queued. */
  function Put(q: Queue, song: Song): (r: Queue)
    ensures |r| == |q| + 1
    ensures r[..|q|] == q && r[|q|] == song
  {
    q + [song]
  }

  /**
   * `songs.get()` once it has something to return: the oldest song and the rest.
   * `None` stands for an empty queue, on which the real call would wait.
   */
  function Get(q: Queue): (r: Option<(Song, Queue)>)
    ensures r.None? <==> |q| == 0
    ensures r.Some? ==> [r.value.0] + r.value.1 == q
  {
    if |q| == 0 then None else Some((q[0], q[1..]))
  }

  /** FIFO law: a put behind a non-empty queue does not change which song comes out first. */
  lemma PutThenGet(q: Queue, song: Song)
    ensures |q| == 0 ==> Get(Put(q, song)) == Some((song, []))
    ensures |q| > 0 ==> Get(Put(q, song)) == Some((q[0], Put(q[1..], song)))
  {
    if |q| > 0 {
      assert Put(q, song)[1..] == Put(q[1..], song);
    }
  }

  /** `songs.clear()`: drops every pending song. */
  function Clear(q: Queue): (r: Queue)
    ensures |r| == 0
  {
    []
  }

  function Clamp(i: int, lo: int, hi: int): (r: int)
    requires lo <= hi
    ensures lo <= r <= hi
  {
    if i < lo then lo else if i > hi then hi else i
  }

  /**
   * `songs[start:end]` for display. Both bounds are clamped into the queue, so
   * the view is empty when `start` lies at or beyond the end or `end <= start`.
   */
  function Slice(q: Queue, start: int, end: int): (r: Queue)
    ensures |r| <= |q|
    ensures 0 <= start <= end <= |q| ==> r == q[start..end]
    ensures start >= |q| || end <= start || end <= 0 ==> r == []
    ensures 0 <= start < |q| && start < end ==> |r| == (if end < |q| then end else |q|) - start
    ensures 0 <= start ==> forall k :: 0 <= k < |r| ==> r[k] == q[start + k]
  {
    var lo := Clamp(start, 0, |q|);
    var hi := Clamp(end, lo, |q|);
    q[lo..hi]
  }
}

=== FILE: music.dfy ===
/**
 * The music cog's registry of sessions (`Music.voice_states`): lazy lookup,
 * `leave`, unloading, and the player loop of one guild seen through it.
 */
module Music {
  import opened Wrappers
  import opened Session

  type GuildId = int

  /** At most one session per guild, by construction of the map. */
  type Registry = map<GuildId, VoiceState>

  /** A lookup's possibly extended registry and the session it found. */
  datatype Lookup = Lookup(registry: Registry, state: VoiceState)

  /**
   * `get_voice_state`: the stored session if the guild has one, otherwise a
   * fresh one, stored under the guild. No other guild's entry changes. It runs
   * before every command of the cog.
   */
  function GetVoiceState(reg: Registry, g: GuildId): (r: Lookup)
    ensures g in r.registry && r.registry[g] == r.state
    ensures g in reg ==> r.registry == reg && r.state == reg[g]
    ensures g !in reg ==>
      && r.state.voice.None? && r.state.current.None? && r.state.songs == []
      && !r.state.loop && r.state.volume == 50 && r.state.skipVotes == {} && !r.state.awaitingSong
    ensures r.registry.Keys == reg.Keys + {g}
    ensures forall k :: k in reg && k != g ==> r.registry[k] == reg[k]
  {
    if g in reg then Lookup(reg, reg[g])
    else
      var state := Fresh();
      Lookup(reg[g := state], state)
  }

  /** A second lookup of the same guild finds what the first returned and adds nothing. */
  lemma GetVoiceStateTwice(reg: Registry, g: GuildId)
    ensures var first := GetVoiceState(reg, g);
      GetVoiceState(first.registry, g) == first
  {
  }

  /**
   * `leave`'s outcome: "Not connected to any voice channel." is sent, or the
   * session is left and no message is sent.
   */
  datatype LeaveReply = NotConnected | Left

  datatype LeaveOutcome = LeaveOutcome(registry: Registry, reply: LeaveReply, disconnected: bool)

  /**
   * `leave` on a guild whose session exists (the lookup before every command
   * guarantees it): refuses when not connected, otherwise stops the session
   * and deletes exactly that guild's entry.
   */
  function Leave(reg: Registry, g: GuildId): (r: LeaveOutcome)
    requires g in reg
    ensures reg[g].voice.None? ==> r == LeaveOutcome(reg, NotConnected, false)
    ensures reg[g].voice.Some? ==> r.registry == reg - {g} && r.reply == Left && r.disconnected
    ensures r.registry.Keys == reg.Keys || r.registry.Keys == reg.Keys - {g}
    ensures forall k :: k in r.registry ==> k in reg && r.registry[k] == reg[k]
  {
    var state := reg[g];
    if state.voice.None? then LeaveOutcome(reg, NotConnected, false)
    else
      var stopped := Stop(state);
      LeaveOutcome(reg - {g}, Left, stopped.disconnected)
  }

  /**
   * `leave` as invoked: the lookup runs first, so leaving a guild without a
   * session creates one and then reports that it is not connected.
   */
  function LeaveCommand(reg: Registry, g: GuildId): (r: LeaveOutcome)
    ensures g !in reg ==> r == LeaveOutcome(reg[g := Fresh()], NotConnected, false)
    ensures g in reg && reg[g].voice.None? ==> r.registry == reg && r.reply == NotConnected
    ensures g in reg && reg[g].voice.Some? ==>
      g !in r.registry && r.registry == reg - {g} && r.reply == Left && r.disconnected
  {
    var lookup := GetVoiceState(reg, g);
    Leave(lookup.registry, g)
  }

  /** The player loop of guild `g` takes one iteration on the stored session. */
  function PlayerTick(reg: Registry, g: GuildId, timedOut: bool): (r: Registry)
    requires g in reg
    ensures r.Keys == reg.Keys
    ensures r[g] == PlayerStep(reg[g], timedOut).state
    ensures forall k :: k in reg && k != g ==> r[k] == reg[k]
  {
    reg[g := PlayerStep(reg[g], timedOut).state]
  }

  /**
   * The idle timeout stops the session but does not remove it: the guild keeps
   * its entry, now disconnected with an empty queue, and the next lookup
   * returns that same session rather than a fresh one.
   */
  lemma IdleTimeoutKeepsEntry(reg: Registry, g: GuildId)
    requires g in reg && !reg[g].loop && reg[g].songs == []
    ensures var after := PlayerTick(reg, g, true);
      && g in after
      && after[g].songs == [] && after[g].voice.None? && !IsPlaying(after[g])
      && after[g].current == reg[g].current
      && GetVoiceState(after, g).state == after[g]
      && LeaveCommand(after, g).reply == NotConnected
  {
  }

  /** `cog_unload`: runs `stop` on every session; the entries themselves stay. */
  function Unload(reg: Registry): (r: Registry)
    ensures r.Keys == reg.Keys
    ensures forall g :: g in r ==> r[g].songs == [] && r[g].voice.None?
    ensures forall g :: g in r ==> r[g].current == reg[g].current && r[g].loop == reg[g].loop
    ensures forall g :: g in r ==> r[g].(songs := reg[g].songs, voice := reg[g].voice) == reg[g]
  {
    map g | g in reg :: Stop(reg[g]).state
  }

  /**
   * After unloading, unloading again changes nothing, and `leave` on any
   * guild finds it not connected and keeps the registry.
   */
  lemma UnloadThenLeave(reg: Registry, g: GuildId)
    ensures Unload(Unload(reg)) == Unload(reg)
    ensures g in reg ==> Leave(Unload(reg), g) == LeaveOutcome(Unload(reg), NotConnected, false)
  {
    var once := Unload(reg);
    forall k | k in once
      ensures Unload(once)[k] == once[k]
    {
      StopIdempotent(reg[k]);
    }
  }
}

=== FILE: session.dfy ===
/**
 * The per-guild playback session (`VoiceState`): its record, the `is_playing`
 * test, `skip`, `stop`, and one iteration of the background player loop.
 *
 * Each iteration and each transition is one atomic step. The 180-second wait
 * for the next song is an input flag, not a clock.
 */
module Session {
  import opened Wrappers
  import opened Media

  type ChannelId = int

  /** A live voice connection, identified by the channel it is in. */
  datatype Voice = Voice(channel: ChannelId)

  /**
   * One guild's session. `volume` is a whole percentage (the bot stores it
   * divided by 100); `skipVotes` is kept but no command ever adds to it.
   * `awaitingSong` is where the player task is suspended: true while it sits
   * inside `songs.get()`, having already read the loop flag for this
   * iteration; false while it waits for the sink to finish a song.
   */
  datatype VoiceState = VoiceState(
    voice: Option<Voice>,
    current: Option<Song>,
    songs: Queue,
    loop: bool,
    volume: int,
    skipVotes: set<UserId>,
    awaitingSong: bool)

  /** Initial volume, 0.5 in the bot. */
  const DefaultVolume: int := 50

  /**
   * A just-constructed session: not connected, nothing queued or current,
   * loop off, volume at its default, no votes, and a player task that has not
   * yet run its first iteration.
   */
  function Fresh(): (s: VoiceState)
    ensures s.voice.None? && s.current.None? && s.songs == []
    ensures !s.loop && s.volume == 50 && s.skipVotes == {} && !s.awaitingSong
  {
    VoiceState(None, None, [], false, DefaultVolume, {}, false)
  }

  /**
   * `is_playing`: the truthiness of `voice and current`. Neither the queue,
   * the loop flag, the volume, the votes nor the player's phase take part.
   */
  predicate IsPlaying(s: VoiceState)
  {
    s.voice.Some? && s.current.Some?
  }

  /** `skip` as a transition plus whether it told the sink to stop. */
  datatype Skipped = Skipped(state: VoiceState, sinkStopped: bool)

  /** `VoiceState.skip`: forgets all votes; stops the sink only while playing. */
  function Skip(s: VoiceState): (r: Skipped)
    ensures r.state.skipVotes == {}
    ensures r.sinkStopped <==> IsPlaying(s)
    ensures r.state.(skipVotes := s.skipVotes) == s
  {
    var cleared := s.(skipVotes := {});
    Skipped(cleared, IsPlaying(cleared))
  }

  /**
   * The player does not look at the votes, so a skip leaves its next
   * iteration as it was; only the sink stop makes that iteration come sooner.
   */
  lemma SkipLeavesPlayerAlone(s: VoiceState, timedOut: bool)
    ensures PlayerStep(Skip(s).state, timedOut).effect == PlayerStep(s, timedOut).effect
    ensures PlayerStep(Skip(s).state, timedOut).state == PlayerStep(s, timedOut).state.(skipVotes := {})
  {
  }

  /** `stop` as a transition plus whether it disconnected a voice connection. */
  datatype Stopped = Stopped(state: VoiceState, disconnected: bool)

  /**
   * `VoiceState.stop`: clears the queue and, when connected, disconnects.
   * The current song, loop flag, volume and votes are left alone.
   */
  function Stop(s: VoiceState): (r: Stopped)
    ensures r.state.songs == [] && r.state.voice.None?
    ensures !IsPlaying(r.state)
    ensures r.disconnected <==> s.voice.Some?
    ensures r.state.current == s.current && r.state.loop == s.loop
    ensures r.state.volume == s.volume && r.state.skipVotes == s.skipVotes
    ensures r.state.awaitingSong == s.awaitingSong
  {
    var cleared := s.(songs := Clear(s.songs));
    if cleared.voice.Some? then Stopped(cleared.(voice := None), true)
    else Stopped(cleared, false)
  }

  /** Stopping a stopped session changes nothing and disconnects nothing. */
  lemma StopIdempotent(s: VoiceState)
    ensures Stop(Stop(s).state) == Stopped(Stop(s).state, false)
  {
  }

  /** What one player iteration does outside the session record. */
  datatype Effect =
    | Play(song: Song, volume: int) // volume set on the source, then `voice.play`
    | Fault                         // the play attempt raised; reported in the text channel
    | IdleStop                      // the wait timed out; `stop` ran while the next `get()` waits
    | Waiting                       // queue empty, suspended inside the 180-second wait

  datatype Step = Step(state: VoiceState, effect: Effect)

  /**
   * The part of an iteration after the song is chosen: set its volume and hand
   * it to the voice connection. With no current song or no connection the
   * attribute access raises, which the loop catches and reports.
   */
  function StartPlayback(s: VoiceState): (r: Step)
    ensures r.state == s
    ensures r.effect.Play? <==> IsPlaying(s)
    ensures r.effect.Play? ==> r.effect == Play(s.current.value, s.volume)
    ensures !r.effect.Play? ==> r.effect == Fault
  {
    if s.current.None? || s.voice.None? then Step(s, Fault)
    else Step(s, Play(s.current.value, s.volume))
  }

  /**
   * Whether the next iteration goes to the queue: the task is already
   * suspended in `songs.get()`, or it reads the loop flag and finds it off.
   */
  predicate TakesFromQueue(s: VoiceState)
  {
    s.awaitingSong || !s.loop
  }

  /**
   * One iteration of `audio_player_task`, or the resumption of a suspended
   * `songs.get()`. Going to the queue, it dequeues the next song into
   * `current`, or on an empty queue stays suspended. With `loop` on at the top
   * of an iteration it replays `current` without touching the queue. A loop
   * flag switched on while the task is suspended in `get()` is only read at
   * the top of a later iteration.
   *
   * `timedOut` says that the 180-second wait in `get()` ran out. The loop then
   * only schedules `stop` and continues at once, so the next iteration starts
   * before the stop runs, and the stop runs at that iteration's first
   * suspension. With loop off that is a fresh `get()` on the still-empty
   * queue. With loop on, the current song is first handed to the
   * still-connected voice.
   */
  function PlayerStep(s: VoiceState, timedOut: bool): (r: Step)
    // to the queue, a song is queued: it becomes current and leaves the queue
    ensures TakesFromQueue(s) && |s.songs| > 0 ==>
      r.state == s.(current := Some(s.songs[0]), songs := s.songs[1..], awaitingSong := false)
    ensures TakesFromQueue(s) && |s.songs| > 0 && s.voice.Some? ==> r.effect == Play(s.songs[0], s.volume)
    // to the queue, nothing queued: stay suspended
    ensures TakesFromQueue(s) && |s.songs| == 0 && !timedOut ==> r == Step(s.(awaitingSong := true), Waiting)
    // timeout with loop off: stopped, and suspended in the next `get()`
    ensures TakesFromQueue(s) && |s.songs| == 0 && timedOut && !s.loop ==>
      r == Step(Stop(s).state.(awaitingSong := true), IdleStop)
    // timeout with loop switched on meanwhile: replay on the old connection, then stopped
    ensures TakesFromQueue(s) && |s.songs| == 0 && timedOut && s.loop ==>
      r == Step(Stop(s).state.(awaitingSong := false), StartPlayback(s).effect)
    // loop on at the top of an iteration: state untouched, the current song goes to the sink again
    ensures !TakesFromQueue(s) ==> r.state == s
    ensures !TakesFromQueue(s) && IsPlaying(s) ==> r.effect == Play(s.current.value, s.volume)
    // `current` is written only by the dequeue and never cleared
    ensures s.current.Some? ==> r.state.current.Some?
    ensures r.effect.Play? ==> r.state.current == Some(r.effect.song)
    ensures r.effect.Play? ==> s.voice.Some? && r.effect.volume == s.volume
    ensures r.effect.Play? && !timedOut ==> IsPlaying(r.state)
    ensures r.state.awaitingSong <==> r.effect.Waiting? || r.effect.IdleStop?
    ensures r.state.loop == s.loop && r.state.volume == s.volume && r.state.skipVotes == s.skipVotes
  {
    if TakesFromQueue(s) then
      match Get(s.songs)
      case None =>
        if !timedOut then Step(s.(awaitingSong := true), Waiting)
        else if !s.loop then Step(Stop(s).state.(awaitingSong := true), IdleStop)
        else Step(Stop(s).state.(awaitingSong := false), StartPlayback(s).effect)
      case Some((song, rest)) =>
        StartPlayback(s.(current := Some(song), songs := rest, awaitingSong := false))
    else
      StartPlayback(s)
  }

  /** The songs an effect hands to the sink. */
  function Played(e: Effect): seq<Song>
  {
    if e.Play? then [e.song] else []
  }

  /** `n` player iterations, none timing out: the final session and the songs played. */
  function Run(s: VoiceState, n: nat): (VoiceState, seq<Song>)
    decreases n
  {
    if n == 0 then (s, [])
    else
      var step := PlayerStep(s, false);
      var rest := Run(step.state, n - 1);
      (rest.0, Played(step.effect) + rest.1)
  }

  /**
   * With loop off and a connection, the sink receives the queued songs in
   * queue order: after `n` iterations exactly the first `n` have been played,
   * the last of them is current, and the rest are still queued.
   */
  lemma {:induction false} PlaysQueueInOrder(s: VoiceState, n: nat)
    requires !s.loop && s.voice.Some? && n <= |s.songs|
    ensures Run(s, n).1 == s.songs[..n]
    ensures Run(s, n).0.songs == s.songs[n..]
    ensures n > 0 ==> Run(s, n).0.current == Some(s.songs[n - 1])
    ensures Run(s, n).0.voice == s.voice && !Run(s, n).0.loop
    ensures n > 0 ==> !Run(s, n).0.awaitingSong
    decreases n
  {
    if n > 0 {
      var step := PlayerStep(s, false);
      PlaysQueueInOrder(step.state, n - 1);
      assert step.state.songs[n - 1..] == s.songs[n..];
      assert s.songs[..n] == [s.songs[0]] + step.state.songs[..n - 1];
      if n > 1 {
        assert step.state.songs[n - 2] == s.songs[n - 1];
      }
    }
  }

  /**
   * With loop on while playing, and the task not suspended in `songs.get()`,
   * every iteration replays the current song and nothing changes.
   */
  lemma {:induction false} LoopReplaysCurrent(s: VoiceState, n: nat)
    requires s.loop && !s.awaitingSong && IsPlaying(s)
    ensures Run(s, n).0 == s
    ensures |Run(s, n).1| == n
    ensures forall k :: 0 <= k < n ==> Run(s, n).1[k] == s.current.value
    decreases n
  {
    if n > 0 {
      LoopReplaysCurrent(s, n - 1);
      var step := PlayerStep(s, false);
      assert step == Step(s, Play(s.current.value, s.volume));
    }
  }

  /** Once set, `current` stays set through any number of iterations. */
  lemma {:induction false} CurrentNeverCleared(s: VoiceState, n: nat)
    requires s.current.Some?
    ensures Run(s, n).0.current.Some?
    decreases n
  {
    if n > 0 {
      CurrentNeverCleared(PlayerStep(s, false).state, n - 1);
    }
  }

  /**
   * After the last song ends with the queue empty, the next iteration only
   * waits, and the session still reports `is_playing`: nothing clears `current`.
   */
  lemma StillPlayingWhileIdle(s: VoiceState)
    requires IsPlaying(s) && TakesFromQueue(s) && s.songs == []
    ensures PlayerStep(s, false) == Step(s.(awaitingSong := true), Waiting)
    ensures IsPlaying(PlayerStep(s, false).state)
  {
  }

  /**
   * A task suspended in `songs.get()` has already read the loop flag: while
   * it gets a song or keeps waiting, turning the flag either way changes only
   * the flag. Only a timeout sends the task back to the top of the loop,
   * where the flag is read again.
   */
  lemma SuspendedGetIgnoresLoop(s: VoiceState, loop: bool, timedOut: bool)
    requires s.awaitingSong
    ensures !timedOut || |s.songs| > 0 ==>
      && PlayerStep(s.(loop := loop), timedOut).effect == PlayerStep(s, timedOut).effect
      && PlayerStep(s.(loop := loop), timedOut).state == PlayerStep(s, timedOut).state.(loop := loop)
    ensures timedOut && |s.songs| == 0 ==>
      && PlayerStep(s.(loop := false), timedOut).effect == IdleStop
      && PlayerStep(s.(loop := true), timedOut).effect == StartPlayback(s).effect
  {
  }

  /**
   * The idle timeout stops the session: queue empty, connection gone, so it is
   * no longer playing. With loop off the task is suspended in a fresh `get()`,
   * and a second timeout changes nothing more. With loop switched on during
   * the wait, the current song is handed to the sink once more before the
   * stop disconnects, and the replay after that faults for lack of a
   * connection.
   */
  lemma IdleTimeoutStops(s: VoiceState)
    requires TakesFromQueue(s) && s.songs == []
    ensures var t := PlayerStep(s, true).state;
      && t.songs == [] && t.voice.None? && !IsPlaying(t) && t.current == s.current
      && (!s.loop ==> PlayerStep(s, true).effect == IdleStop && t.awaitingSong)
      && (!s.loop ==> PlayerStep(t, true) == Step(t, IdleStop))
      && (s.loop && IsPlaying(s) ==> PlayerStep(s, true).effect == Play(s.current.value, s.volume))
      && (s.loop ==> !t.awaitingSong && PlayerStep(t, false) == Step(t, Fault))
  {
    StopIdempotent(s);
  }

  /**
   * Queue A, B, C with loop off and a connection: three iterations play A, B,
   * C in that order, and the fourth waits for a new song with C still current.
   */
  lemma ThreeSongScenario(a: Song, b: Song, c: Song, ch: ChannelId)
    ensures var s := VoiceState(Some(Voice(ch)), None, [a, b, c], false, DefaultVolume, {}, false);
      var run := Run(s, 3);
      && run.1 == [a, b, c]
      && PlayerStep(run.0, false) == Step(run.0.(awaitingSong := true), Waiting)
      && run.0.current == Some(c)
  {
    var s := VoiceState(Some(Voice(ch)), None, [a, b, c], false, DefaultVolume, {}, false);
    PlaysQueueInOrder(s, 3);
    assert s.songs[..3] == [a, b, c];
  }
}

=== FILE: wrappers.dfy ===
/** The optional value used wherever the bot holds `None` or an object. */
module Wrappers {

  /** `None` models Python's `None`; `Some(v)` a present (truthy) object. */
  datatype Option<+T> = None | Some(value: T)
}
